=== FILE: README.md ===
# spotiford in Dafny

A model of the core of spotiford, a Discord bot that drives a user's Spotify
account from direct messages. The model covers:

- the command layer in `bot/bot.py`:
  - the two checks that gate commands (`disallow_guilds`, `authenticate`);
  - the reaction check and `bot.wait_for`;
  - the keycap track selection behind `queue` and `play`;
  - the like/unlike flow of `now`.
- the two embeds of `bot/embeds.py`;
- the emoji constants and `concat_track_artists` of `bot/utils.py`, and
  their earlier copies in the top-level `utils.py`;
- the SQLite token cache of `cache/db_manager.py`, with the table modelled as
  a map from Discord id to row.

Modules, one per source file plus two of shared vocabulary:

| module | file | models |
|---|---|---|
| `Wrappers` | `wrappers.dfy` | `Option`, `Result` |
| `Text` | `text.dfy` | Python's `sep.join`, `s.split(sep)`, `str(n)` and `needle in hay` on strings |
| `Spotify` | `spotify.dfy` | the track, artist and album records the Spotify API returns |
| `BotUtils` | `bot_utils.dfy` | `bot/utils.py` |
| `DraftUtils` | `draft_utils.dfy` | `utils.py` |
| `Embeds` | `embeds.dfy` | `bot/embeds.py` |
| `TokenCache` | `token_cache.dfy` | `cache/db_manager.py` and `set_user` of `music/api.py` |
| `Bot` | `bot.dfy` | `bot/bot.py` |

Each handler is a pure function. Its inputs are what it reads: the invoker,
the search results or saved state the Spotify API returned, and the reaction
events delivered while it waits. Its result is a `Run`: the effects on
Discord and Spotify, in order, and the exception the handler ended with, if
any. `bot.wait_for` sees a finite sequence of events. It returns the first
event that passes the check, or times out if none does.

The `Account` datatype records the queue, the started track and the saved
library. `ApplyEffects` plays a trace of effects against it. The lemmas about
`queue`, `play` and `now` are stated as changes to the account.

The model keeps these quirks of the code as written:

- On a selection timeout, `message.delete()` is called without `await` (bot/bot.py:109). No deletion is modelled there.
- `reaction_check` compares only the user and the emoji name (bot/bot.py:75). A matching reaction on any message resolves the wait.
- The like and unlike flows pass one emoji *string* where the docstring speaks of a list (bot/bot.py:208, 233). `in` is then substring containment, so a reaction whose emoji name is empty also qualifies (`Bot.EmptyEmojiNameLikes`).
- The selection waits for any of the five keycaps, not only those attached to the list (bot/bot.py:101). A keycap past the end of a short list raises `IndexError` at bot/bot.py:105 (`Bot.UnattachedKeycapRaises`).

## Model

| member | source | states |
|---|---|---|
| BotUtils.NumberEmojisAreKeycaps | bot/utils.py:2-8 | there are five keycap emojis, and entry `i` is the digit `i + 1` followed by the combining keycap mark |
| BotUtils.KeycapInjective | bot/utils.py:2-8 | different positions have different keycaps |
| BotUtils.NumberEmojisDistinct | bot/utils.py:2-8 | the five keycaps are pairwise different, so `index` on a name finds the one position holding it |
| BotUtils.HeartsAreDistinct | bot/utils.py:10-11 | the heart and the broken heart are different one-character emojis |
| BotUtils.ArtistNames | bot/utils.py:22 | the list comprehension keeps one name per artist, in artist order |
| BotUtils.ConcatTrackArtists | bot/utils.py:14-22 | no artists give the empty string and one artist gives that artist's name; otherwise the length is the names plus one ", " per gap |
| BotUtils.ArtistsInOrder | bot/utils.py:22 | every artist name appears unchanged at its offset in the joined string, followed by ", " unless it is the last |
| BotUtils.ArtistsRecoverable | bot/utils.py:22 | for a track with at least one artist, when no name holds a comma, splitting the result on ", " gives back the artist names |
| DraftUtils.ConcatTrackArtists | utils.py:11-12 | the draft's concatenation equals the bot's on every track |
| DraftUtils.NumberEmojisAgree | utils.py:2-8 | the draft's keycap list is the bot's: five distinct keycaps 1 through 5 |
| Text.JoinLength | bot/utils.py:22 | `sep.join` output length is the total part length plus one separator per gap |
| Text.JoinPlacesParts | bot/utils.py:22 | `sep.join` places every part, in order, at its computed offset, with a separator after each part but the last |
| Text.SplitJoin | bot/utils.py:22 | for at least one part, `split(sep)` undoes `sep.join` when no part holds the separator's first character |
| Text.NatToDecimal | bot/embeds.py:36 | `str(n)` is a non-empty run of digits without a leading zero, and a single digit below ten |
| Text.DecimalRoundTrip | bot/embeds.py:36 | reading the printed number back gives the number |
| Text.SubstringOfOneChar | bot/bot.py:75 | the only strings contained in a one-character string are the empty string and that character |
| Embeds.TrackFields | bot/embeds.py:33-39 | the loop adds one field per track, field `i` describing track `i` |
| Embeds.CreateTracksEmbed | bot/embeds.py:23-41 | the title is `Results for '<query>'`; there is no description; there is one non-inline field per track, in order, named `#<i+1> <artists> - <name>` with the album name as value |
| Embeds.CreateTrackEmbed | bot/embeds.py:44-55 | the title is the track name, the description is the joined artists, and there are no fields |
| Embeds.TrackEmbedDescribesTrack | bot/embeds.py:52 | for a track with at least one artist, the description splits back into the track's artist names when none holds a comma |
| Embeds.FieldNumbersArePositions | bot/embeds.py:36 | the number after `#` in field `i` reads back as `i + 1` |
| Embeds.FieldNumbersMatchKeycaps | bot/embeds.py:33-39 | field `i` of the list starts with `#`, then the digit on keycap `i`, then a space |
| TokenCache.DictFactory | cache/db_manager.py:7-19 | the dict's keys are exactly the column names, and the last column holds its row value |
| TokenCache.DictFactoryAt | cache/db_manager.py:16-19 | a column not repeated later maps to the value at its position, since later writes overwrite earlier ones |
| TokenCache.DictFactoryDistinct | cache/db_manager.py:16-19 | with distinct column names, every column maps to its own row value |
| TokenCache.DistinctCardinality | cache/db_manager.py:16-19 | distinct column names give a dict with as many keys as there are columns |
| TokenCache.HasUser | cache/db_manager.py:44-55 | the `COUNT(*)` read through the dict factory is non-zero exactly when the id has a row |
| TokenCache.NewCacheHandler | cache/db_manager.py:60-61 | a new handler's current user is the text `""` |
| TokenCache.SetUser | music/api.py:33-42 | `set_user` makes the given id the handler's current user |
| TokenCache.TokenRowAsDict | cache/db_manager.py:70-77 | a fetched row becomes a dict with exactly the six token columns, each holding its stored value |
| TokenCache.GetCachedToken | cache/db_manager.py:63-77 | there is a result exactly when the current user is an integer id with a row, and it is that row as a six-column dict |
| TokenCache.Bind | cache/db_manager.py:86-94 | named binding succeeds exactly when every parameter is supplied with a storable value, yields them in parameter order, and otherwise reports the first failing parameter |
| TokenCache.TokenFieldsAreColumns | cache/db_manager.py:70-94 | the six token fields the insert writes are exactly the columns `get_cached_token` selects |
| TokenCache.InsertableHasTokenFields | cache/db_manager.py:86-94 | arguments the insert accepts carry all six token fields |
| TokenCache.Upsert | cache/db_manager.py:88-91 | `INSERT OR REPLACE` stores the row under its key and leaves every other row as it was |
| TokenCache.SaveTokenToCache | cache/db_manager.py:79-95 | the save succeeds exactly when the merged arguments bind with an integer `discord_id`; then that key holds the token's six fields and no other row changes |
| TokenCache.SaveIsUpsert | cache/db_manager.py:86-94 | an accepted save is exactly an `INSERT OR REPLACE` of the bound row under the bound `discord_id` |
| TokenCache.SaveThenLoad | cache/db_manager.py:63-95 | after a save for an integer current user, when the token carries no `discord_id` of its own, the token holds all six fields, `has_user` holds, and the cached token is the dict of exactly those six saved fields |
| TokenCache.TokenDictOfInfo | cache/db_manager.py:63-77 | a row built from a token dict reads back as that dict restricted to the token columns, so the token read after a save is the saved token cut to those columns |
| TokenCache.SaveIdempotent | cache/db_manager.py:86-94 | saving the same token twice gives the same table as saving it once |
| TokenCache.TokenKeyOverridesCurrentUser | cache/db_manager.py:93 | a `discord_id` inside the token wins the dict merge, so the row is stored under it and not under the current user |
| TokenCache.FreshHandlerHasNoUser | cache/db_manager.py:58-95 | a handler never given a user reads no token and cannot save a token that lacks its own `discord_id` |
| Bot.ReactionCheck | bot/bot.py:62-75 | the reaction's user is the invoker and its emoji name is in the allowed collection: list membership for a list, substring containment for a string; the message is not consulted |
| Bot.SelectionCheckAccepts | bot/bot.py:75 | with the keycap list, the check accepts exactly the invoker's reactions with one of the five keycaps |
| Bot.HeartCheckAccepts | bot/bot.py:75 | with a single heart string, the check accepts exactly the invoker's reactions named that heart or the empty string |
| Bot.WaitFor | bot/bot.py:99-103 | the wait resolves to the first event that passes the check, and times out exactly when none does |
| Bot.WaitSkipsNoise | bot/bot.py:99-103 | events that fail the check before the awaited one, and any events after it, do not change the outcome |
| Bot.OthersNeverSelect | bot/bot.py:101 | reactions by anyone other than the invoker never resolve the wait |
| Bot.KeycapReactions | bot/bot.py:95-96 | the loop attaches keycap `i` as the `i`-th reaction |
| Bot.IndexOf | bot/bot.py:105 | `index` returns the first position holding the name |
| Bot.ChosenKeycap | bot/bot.py:99-105 | there is no choice exactly when the wait times out; otherwise the choice is below five and is the keycap the accepted reaction carries |
| Bot.Presentation | bot/bot.py:93-96 | the list message comes first, then keycaps 1..n in order |
| Bot.PresentationIsQuiet | bot/bot.py:93-96 | sending the list and attaching keycaps neither deletes anything nor calls Spotify |
| Bot.Resolve | bot/bot.py:98-109 | after the keycaps, a timeout does nothing more; a keycap naming a listed track runs that track's callback; any other keycap raises `IndexError`; none of these attaches a reaction |
| Bot.ShowTrackSelection | bot/bot.py:78-109 | covers five outcomes (listed below this table) |
| Bot.TrackCallback | bot/bot.py:333-336 | delete the list, make the track's Spotify call, then send the track embed, in that order |
| Bot.CallbackActsOnce | bot/bot.py:333-336 | a callback deletes the list once and calls Spotify once |
| Bot.SelectionActsAtMostOnce | bot/bot.py:78-109 | the selection deletes the list and calls Spotify at most once each, and calls Spotify exactly when an accepted keycap names a listed track |
| Bot.UnattachedKeycapRaises | bot/bot.py:104-107 | with fewer than five tracks, the invoker's reaction with the first unattached keycap raises `IndexError` without deleting or calling Spotify |
| Bot.SelectionAccount | bot/bot.py:93-96 | sending the list and attaching keycaps leaves the Spotify account unchanged |
| Bot.SelectionTailAccount | bot/bot.py:98-109 | after the keycaps, the account changes exactly by the chosen listed track's Spotify call, and not at all otherwise |
| Bot.CallbackAccount | bot/bot.py:333-336 | of a callback's effects only its Spotify call changes the account |
| Bot.ConfirmedCallAccount | bot/bot.py:211-213 | a Spotify call followed by the message deletion and the confirmation changes the account exactly as the call does |
| Bot.QueueAppendsChosen | bot/bot.py:319-338 | `queue` appends exactly the chosen track's URI to the playback queue, and changes nothing if no listed track was chosen |
| Bot.PlayStartsChosen | bot/bot.py:257-264 | `play` with a query starts exactly the chosen track, and changes nothing if no listed track was chosen |
| Bot.Now | bot/bot.py:167-240 | `now` shows the track and attaches the broken heart if the track is saved, the heart if not; on the invoker's matching reaction it removes or saves the track, deletes the message and confirms, and otherwise stops there |
| Bot.NowTogglesSaved | bot/bot.py:186-240 | when `now` acts, the track's saved state flips and the rest of the library is unchanged; otherwise the account is untouched |
| Bot.EmptyEmojiNameLikes | bot/bot.py:231-236 | the invoker's reaction with an empty emoji name saves the track |
| Bot.DisallowGuilds | bot/bot.py:19-36 | the check passes exactly in a DM; in a guild it sends the one warning |
| Bot.Authenticate | bot/bot.py:48-55 | the check passes exactly when the author has a cached token, then sets them as the API user; otherwise it sends the login prompt |
| Bot.Invoke | bot/bot.py:19-57 | the guild check runs first and then authentication; the body runs, after `set_user`, only when both pass |
| Bot.InvokePassesBody | bot/bot.py:48-57 | passing both checks adds only `set_user`, so the account change and the exception are those of the body |
| Bot.QueueCommandQueuesChosen | bot/bot.py:319-338 | a logged-in `queue` from a DM sets the user, then queues exactly the chosen listed track, raising only for an unattached keycap |
| Bot.PlayCommandPlays | bot/bot.py:245-268 | `play` without arguments only resumes; with arguments it starts exactly the chosen listed track |
| Bot.AuthenticatedUserHasToken | bot/bot.py:48-55 | once `authenticate` lets an author through, the token cache reads a token for them |
| Bot.GuardedCommandsNeedDmAndToken | bot/bot.py:19-57 | a guarded command reaches Spotify only from a DM by an author with a cached token |

The five outcomes stated by `Bot.ShowTrackSelection`:

1. The list message comes first, then one keycap per attached track, and no reaction after that.
2. More than five tracks raise `IndexError` after the fifth keycap.
3. A timeout ends the flow after the keycaps.
4. A keycap naming a listed track deletes the list, makes that callback's Spotify call and shows the track.
5. Any other keycap raises `IndexError`.

## Left out

- Discord and Spotify I/O: sending, reacting, deleting and the Spotify calls are recorded as effects, not performed. Search results, `is_saved` and the currently playing track are parameters.
- Time: the 30-second timeout of `bot.wait_for` is the end of the event sequence; the model has no clock.
- Concurrency: the handler's current user is shared across commands running at once in the source. The model threads it through one call at a time.
- `SpotifyException` handling in `play`, `pause`, `next` and `previous`: the Spotify calls never fail in the model.
- `get_currently_playing` returning nothing: `now` is given a track.
- `pause`, `next`, `previous`, `account`, `login`, `connect` and `create_user_embed`: outside the modelled core. They are thin wrappers over Spotify and OAuth calls.
- Embed thumbnails: the image URLs are not modelled, and neither is the `IndexError` that `create_track_embed` raises for an album with no images (bot/embeds.py:53). In the source, `now` would then fail before sending anything (bot/bot.py:184). The `queue` and `play` callbacks would fail after the delete and the Spotify call, without sending the track embed (bot/bot.py:262, 336). In the model the embed is always built, so `now` and the callbacks always send it.
- SQLite mechanics: the connection, the cursor, `CREATE TABLE` and `commit` are not modelled. Neither is type affinity, such as a numeric string `discord_id` being converted to an integer. Integers outside the 64-bit range are refused on insert (`Bind` reports `IntegerOverflow`). They are not modelled on the read side. In the source, `has_user` and `get_cached_token` bind the id too (cache/db_manager.py:53, 76) and raise `OverflowError` for an id beyond 64 bits. In the model, TokenCache.HasUser returns false and TokenCache.GetCachedToken returns `None` there. The model rejects a non-integer key with a datatype mismatch, as `INTEGER PRIMARY KEY` does.
- The top-level `bot.py` and `music.py` drafts: earlier entry points, not part of the core.
- Bot.HandleLike, Bot.HandleDislike, Bot.QueueCommand, Bot.PlayCommand, Bot.NowCommand, Bot.ReactionCheck and Bot.TrackCallback carry no contract of their own. Bot.Now, Bot.ShowTrackSelection, Bot.QueueCommandQueuesChosen and Bot.PlayCommandPlays state what the first five do. Bot.SelectionCheckAccepts and Bot.HeartCheckAccepts state what Bot.ReactionCheck accepts. Bot.CallbackActsOnce and Bot.CallbackAccount state what Bot.TrackCallback does.
- Bot.QueueCommandQueuesChosen and Bot.PlayCommandPlays assume at most five search results. `get_tracks` asks Spotify for at most five (music/api.py:89). The longer case is covered by Bot.ShowTrackSelection.

=== FILE: bot.dfy ===
/** The command layer of `bot/bot.py`: the reaction check, the wait for one
    qualifying reaction, the track-selection and like/unlike flows, and the
    two checks that decide whether a command runs.

    Each handler is a pure function from what it reads (the invoker, the
    search results or saved state the Spotify API returned, and the reaction
    events delivered while it waits) to the trace of effects it performs on
    Discord and Spotify, in order, together with the exception it ends by
    raising, if any. There is no clock: `bot.wait_for` sees a finite
    sequence of events and times out when none of them qualifies. */
module Bot {
  import opened Wrappers
  import opened Text
  import opened Spotify
  import opened BotUtils
  import opened Embeds
  import TokenCache

  // ---------------------------------------------------------------------------
  // Reaction events and the reaction check
  // ---------------------------------------------------------------------------

  /** A `raw_reaction_add` payload: who reacted, with which emoji, on which
      message. */
  datatype Reaction = Reaction(userId: int, emojiName: string, messageId: int)

  /** The `allowed_emojis` argument of `reaction_check`: the selection flow
      passes the list `number_emojis`, the like/unlike flows pass a single
      emoji string. */
  datatype AllowedEmojis = EmojiList(emojis: seq<string>) | EmojiText(text: string)

  /** Python's `name in allowed_emojis`: list membership for a list,
      substring containment for a string. */
  predicate EmojiAllowed(name: string, allowed: AllowedEmojis)
  {
    match allowed
    case EmojiList(emojis) => name in emojis
    case EmojiText(text) => IsSubstring(name, text)
  }

  /** `reaction_check(discord_id, allowed_emojis, reaction)`. The message the
      reaction was added to is not consulted. */
  predicate ReactionCheck(discordId: int, allowed: AllowedEmojis, reaction: Reaction)
  {
    reaction.userId == discordId && EmojiAllowed(reaction.emojiName, allowed)
  }

  /** The selection check accepts exactly the invoker's reactions with one of
      the five keycaps, on any message. */
  lemma SelectionCheckAccepts(discordId: int, reaction: Reaction)
    ensures ReactionCheck(discordId, EmojiList(NumberEmojis), reaction) <==>
      reaction.userId == discordId && exists k :: 0 <= k < 5 && reaction.emojiName == Keycap(k)
  {
    NumberEmojisAreKeycaps();
    if reaction.emojiName in NumberEmojis {
      var k :| 0 <= k < 5 && NumberEmojis[k] == reaction.emojiName;
      assert reaction.emojiName == Keycap(k);
    }
  }

  /** The like and unlike checks, given one emoji as a string, accept the
      invoker's reactions whose name is that emoji or the empty string. */
  lemma HeartCheckAccepts(discordId: int, reaction: Reaction, heart: string)
    requires heart == HeartEmoji || heart == BrokenHeartEmoji
    ensures ReactionCheck(discordId, EmojiText(heart), reaction) <==>
      reaction.userId == discordId && (reaction.emojiName == "" || reaction.emojiName == heart)
  {
    assert heart == [heart[0]];
    SubstringOfOneChar(reaction.emojiName, heart[0]);
  }

  // ---------------------------------------------------------------------------
  // bot.wait_for
  // ---------------------------------------------------------------------------

  /** What `bot.wait_for` resolves to: the qualifying reaction, with its
      position in the event sequence, or a timeout. */
  datatype Wait = Received(position: nat, reaction: Reaction) | TimedOut

  /** `bot.wait_for("raw_reaction_add", check=..., timeout=30.0)` over the
      events delivered before the deadline: the first event that passes
      the check, or `TimedOut` if none does. */
  function WaitFor(events: seq<Reaction>, discordId: int, allowed: AllowedEmojis): (w: Wait)
    ensures w.Received? ==>
      && w.position < |events|
      && events[w.position] == w.reaction
      && ReactionCheck(discordId, allowed, w.reaction)
      && forall j :: 0 <= j < w.position ==> !ReactionCheck(discordId, allowed, events[j])
    ensures w.TimedOut? <==> forall j :: 0 <= j < |events| ==> !ReactionCheck(discordId, allowed, events[j])
    decreases |events|
  {
    if |events| == 0 then TimedOut
    else if ReactionCheck(discordId, allowed, events[0]) then Received(0, events[0])
    else match WaitFor(events[1..], discordId, allowed)
      case TimedOut => TimedOut
      case Received(p, r) => Received(p + 1, r)
  }

  /** Events that do not qualify (another user's, or an emoji outside the
      allowed ones) change nothing: the same reaction is chosen after them,
      and events after the chosen one are never looked at. */
  lemma {:induction false} WaitSkipsNoise(noise: seq<Reaction>, events: seq<Reaction>, later: seq<Reaction>,
                                          discordId: int, allowed: AllowedEmojis)
    requires forall j :: 0 <= j < |noise| ==> !ReactionCheck(discordId, allowed, noise[j])
    requires WaitFor(events, discordId, allowed).Received?
    ensures var w := WaitFor(noise + events + later, discordId, allowed);
      && w.Received?
      && w.reaction == WaitFor(events, discordId, allowed).reaction
      && w.position == |noise| + WaitFor(events, discordId, allowed).position
  {
    var all := noise + events + later;
    var p := |noise| + WaitFor(events, discordId, allowed).position;
    assert all[p] == events[p - |noise|];
    forall j | 0 <= j < p
      ensures !ReactionCheck(discordId, allowed, all[j])
    {
      if j < |noise| {
        assert all[j] == noise[j];
      } else {
        assert all[j] == events[j - |noise|];
      }
    }
    var w := WaitFor(all, discordId, allowed);
    assert w.Received? by {
      assert ReactionCheck(discordId, allowed, all[p]);
    }
  }

  /** Reactions by anyone but the invoker never resolve a wait. */
  lemma OthersNeverSelect(events: seq<Reaction>, discordId: int, allowed: AllowedEmojis)
    requires forall j :: 0 <= j < |events| ==> events[j].userId != discordId
    ensures WaitFor(events, discordId, allowed) == TimedOut
  {
  }

  // ---------------------------------------------------------------------------
  // Effects
  // ---------------------------------------------------------------------------

  /** One observable action of a handler, in the order it happens. */
  datatype Effect =
    | SendEmbed(embed: Embed)       // context.send(embed=...)
    | Send(text: string)            // context.send(text)
    | AddReaction(emoji: string)    // message.add_reaction(emoji)
    | Delete                        // await message.delete()
    | Queue(uri: string)            // api.queue(track)
    | PlayTrack(uri: string)        // api.play_track(track)
    | Resume                        // api.play()
    | SaveTrack(uri: string)        // api.save_track(track)
    | RemoveTrack(uri: string)      // api.remove_track(track)
    | SetApiUser(discordId: int)    // api.set_user(discord_id)

  /** The exceptions a handler can end with. */
  datatype Raised = IndexError | CheckFailure

  /** A handler's effects and the exception it ended with, if any. */
  datatype Run = Run(effects: seq<Effect>, raised: Option<Raised>)

  /** The Spotify playback and library calls. */
  predicate IsSpotifyCall(e: Effect)
  {
    e.Queue? || e.PlayTrack? || e.Resume? || e.SaveTrack? || e.RemoveTrack?
  }

  /** The number of effects in `effects` that satisfy `p`. */
  function Count(effects: seq<Effect>, p: Effect -> bool): nat
    decreases |effects|
  {
    if |effects| == 0 then 0 else (if p(effects[0]) then 1 else 0) + Count(effects[1..], p)
  }

  lemma {:induction false} CountAppend(a: seq<Effect>, b: seq<Effect>, p: Effect -> bool)
    ensures Count(a + b, p) == Count(a, p) + Count(b, p)
    decreases |a|
  {
    if |a| > 0 {
      assert (a + b)[0] == a[0];
      assert (a + b)[1..] == a[1..] + b;
      CountAppend(a[1..], b, p);
    } else {
      assert a + b == b;
    }
  }

  lemma {:induction false} CountNone(a: seq<Effect>, p: Effect -> bool)
    requires forall i :: 0 <= i < |a| ==> !p(a[i])
    ensures Count(a, p) == 0
    decreases |a|
  {
    if |a| > 0 {
      CountNone(a[1..], p);
    }
  }

  // ---------------------------------------------------------------------------
  // show_track_selection and its two callbacks
  // ---------------------------------------------------------------------------

  /** Which command's callback receives the selected track. */
  datatype Intent = QueueIntent | PlayIntent

  /** The Spotify call a callback makes for the selected track. */
  function TrackAction(intent: Intent, track: Track): Effect
  {
    match intent
    case QueueIntent => Queue(track.uri)
    case PlayIntent => PlayTrack(track.uri)
  }

  /** `queue_callback` and the `play` command's `track_callback`: delete the
      list, make the Spotify call, show the selected track. */
  function TrackCallback(intent: Intent, track: Track): seq<Effect>
  {
    [Delete, TrackAction(intent, track), SendEmbed(CreateTrackEmbed(track))]
  }

  /** `message.add_reaction(number_emojis[i])` for `i` in `range(n)`. */
  function KeycapReactions(n: nat): (rs: seq<Effect>)
    requires n <= |NumberEmojis|
    ensures |rs| == n
    ensures forall i :: 0 <= i < n ==> rs[i] == AddReaction(NumberEmojis[i])
  {
    seq(n, i requires 0 <= i < n => AddReaction(NumberEmojis[i]))
  }

  /** `list.index(x)`: the first position holding `x`. */
  function IndexOf(xs: seq<string>, x: string): (k: nat)
    requires x in xs
    ensures k < |xs| && xs[k] == x
    ensures forall j :: 0 <= j < k ==> xs[j] != x
    decreases |xs|
  {
    if xs[0] == x then 0 else 1 + IndexOf(xs[1..], x)
  }

  /** `number_emojis.index(reaction.emoji.name)` for the reaction the
      selection's wait accepted: the 0-based keycap position, or `None` if
      the wait timed out. */
  function ChosenKeycap(events: seq<Reaction>, invoker: int): (c: Option<nat>)
    ensures c.None? <==> WaitFor(events, invoker, EmojiList(NumberEmojis)).TimedOut?
    ensures c.Some? ==>
      c.value < 5 && WaitFor(events, invoker, EmojiList(NumberEmojis)).reaction.emojiName == Keycap(c.value)
  {
    NumberEmojisAreKeycaps();
    match WaitFor(events, invoker, EmojiList(NumberEmojis))
    case TimedOut => None
    case Received(_, reaction) => Some(IndexOf(NumberEmojis, reaction.emojiName))
  }

  /** The list message followed by keycaps 1..n, in that order. */
  function Presentation(embed: Embed, n: nat): (effects: seq<Effect>)
    requires n <= 5
    ensures |effects| == 1 + n && effects[0] == SendEmbed(embed)
    ensures forall i :: 0 <= i < n ==> effects[1 + i] == AddReaction(Keycap(i))
  {
    NumberEmojisAreKeycaps();
    [SendEmbed(embed)] + KeycapReactions(n)
  }

  /** The presentation only sends the list and attaches keycaps. */
  lemma PresentationIsQuiet(embed: Embed, n: nat)
    requires n <= 5
    ensures forall i :: 0 <= i < |Presentation(embed, n)| ==>
      Presentation(embed, n)[i].SendEmbed? || Presentation(embed, n)[i].AddReaction?
  {
    var p := Presentation(embed, n);
    forall i | 0 <= i < |p|
      ensures p[i].SendEmbed? || p[i].AddReaction?
    {
      if i > 0 {
        assert p[1 + (i - 1)] == AddReaction(Keycap(i - 1));
      }
    }
  }

  /** The number of reactions the selection attaches: one per field, but
      the loop stops with an `IndexError` after the fifth keycap. */
  function AttachedCount(tracks: seq<Track>): nat
  {
    if |tracks| <= 5 then |tracks| else 5
  }

  /** The `try` block after the keycaps are attached: hand `tracks[k]` to
      the callback for the chosen keycap `k`. */
  function Resolve(tracks: seq<Track>, chosen: Option<nat>, intent: Intent): (r: Run)
    ensures AddsNoReaction(r.effects)
    ensures chosen.None? ==> r == Run([], None)
    ensures chosen.Some? && chosen.value < |tracks| ==>
      r == Run(TrackCallback(intent, tracks[chosen.value]), None)
    ensures chosen.Some? && chosen.value >= |tracks| ==> r == Run([], Some(IndexError))
  {
    match chosen
    case None => Run([], None)  // the `message.delete()` here is never awaited
    case Some(k) =>
      if k < |tracks| then Run(TrackCallback(intent, tracks[k]), None)
      else Run([], Some(IndexError))
  }

  /** No effect in `effects` attaches a reaction. */
  predicate AddsNoReaction(effects: seq<Effect>)
  {
    forall i :: 0 <= i < |effects| ==> !effects[i].AddReaction?
  }

  /** `show_track_selection(context, query_words, track_callback)` with the
      search results `tracks` and the events `events`.

      The list is sent, then keycaps 1..n attached in order, one per track.
      The wait accepts any of the five keycaps from the invoker, not only the
      n attached; keycap k hands `tracks[k]` to the callback, so a keycap
      beyond the list raises `IndexError`. On timeout nothing further
      happens. */
  function ShowTrackSelection(invoker: int, queryWords: seq<string>, tracks: seq<Track>,
                              events: seq<Reaction>, intent: Intent): (run: Run)
    ensures var n := AttachedCount(tracks);
      && |run.effects| >= 1 + n
      && run.effects[..1 + n] == Presentation(CreateTracksEmbed(Join(queryWords, " "), tracks), n)
      && AddsNoReaction(run.effects[1 + n..])
    ensures |tracks| > 5 ==> |run.effects| == 6 && run.raised == Some(IndexError)
    ensures var c := ChosenKeycap(events, invoker);
      |tracks| <= 5 && c.None? ==> |run.effects| == 1 + |tracks| && run.raised == None
    ensures var c := ChosenKeycap(events, invoker);
      |tracks| <= 5 && c.Some? && c.value < |tracks| ==>
        && run.effects[1 + |tracks|..] ==
             [Delete, TrackAction(intent, tracks[c.value]), SendEmbed(CreateTrackEmbed(tracks[c.value]))]
        && run.raised == None
    ensures var c := ChosenKeycap(events, invoker);
      |tracks| <= 5 && c.Some? && c.value >= |tracks| ==>
        |run.effects| == 1 + |tracks| && run.raised == Some(IndexError)
  {
    var embed := CreateTracksEmbed(Join(queryWords, " "), tracks);
    if |tracks| > 5 then
      var presented := Presentation(embed, 5);
      assert presented[..6] == presented && presented[6..] == [];
      Run(presented, Some(IndexError))
    else
      var presented := Presentation(embed, |tracks|);
      var rest := Resolve(tracks, ChosenKeycap(events, invoker), intent);
      assert (presented + rest.effects)[..1 + |tracks|] == presented;
      assert (presented + rest.effects)[1 + |tracks|..] == rest.effects;
      Run(presented + rest.effects, rest.raised)
  }

  /** `message.delete()` on the track list. */
  predicate IsDeletion(e: Effect)
  {
    e.Delete?
  }

  lemma CallbackActsOnce(intent: Intent, track: Track)
    ensures Count(TrackCallback(intent, track), IsSpotifyCall) == 1
    ensures Count(TrackCallback(intent, track), IsDeletion) == 1
  {
    var cb := TrackCallback(intent, track);
    assert IsSpotifyCall(cb[1]) && !IsSpotifyCall(cb[0]) && !IsSpotifyCall(cb[2]);
    assert cb[1..] == [cb[1], cb[2]] && cb[1..][1..] == [cb[2]] && cb[1..][1..][1..] == [];
    assert Count(cb[1..][1..], IsSpotifyCall) == 0;
    assert Count(cb[1..][1..], IsDeletion) == 0;
  }

  /** The selection calls Spotify and deletes the list at most once each,
      and calls Spotify exactly when an accepted keycap names a listed
      track. */
  lemma SelectionActsAtMostOnce(invoker: int, queryWords: seq<string>, tracks: seq<Track>,
                                events: seq<Reaction>, intent: Intent)
    ensures var run := ShowTrackSelection(invoker, queryWords, tracks, events, intent);
      var c := ChosenKeycap(events, invoker);
      && Count(run.effects, IsSpotifyCall) <= 1
      && Count(run.effects, IsDeletion) <= 1
      && (Count(run.effects, IsSpotifyCall) == 1 <==> |tracks| <= 5 && c.Some? && c.value < |tracks|)
  {
    var run := ShowTrackSelection(invoker, queryWords, tracks, events, intent);
    var n := AttachedCount(tracks);
    var head := run.effects[..1 + n];
    var tail := run.effects[1 + n..];
    assert run.effects == head + tail;
    PresentationIsQuiet(CreateTracksEmbed(Join(queryWords, " "), tracks), n);
    CountNone(head, IsSpotifyCall);
    CountNone(head, IsDeletion);
    CountAppend(head, tail, IsSpotifyCall);
    CountAppend(head, tail, IsDeletion);
    var c := ChosenKeycap(events, invoker);
    if |tracks| <= 5 && c.Some? && c.value < |tracks| {
      assert tail == TrackCallback(intent, tracks[c.value]);
      CallbackActsOnce(intent, tracks[c.value]);
    } else {
      assert tail == [];
    }
  }

  /** A reaction with a keycap that was never attached, because the search
      returned fewer than five tracks, ends the selection with `IndexError`
      and without deleting the list or calling Spotify. */
  lemma UnattachedKeycapRaises(invoker: int, queryWords: seq<string>, tracks: seq<Track>,
                               intent: Intent, messageId: int)
    requires |tracks| < 5
    ensures var run := ShowTrackSelection(invoker, queryWords, tracks,
                                          [Reaction(invoker, NumberEmojis[|tracks|], messageId)], intent);
      && run.raised == Some(IndexError)
      && forall i :: 0 <= i < |run.effects| ==> !IsDeletion(run.effects[i]) && !IsSpotifyCall(run.effects[i])
  {
    var t := |tracks|;
    var events := [Reaction(invoker, NumberEmojis[t], messageId)];
    NumberEmojisAreKeycaps();
    assert ReactionCheck(invoker, EmojiList(NumberEmojis), events[0]);
    var c := ChosenKeycap(events, invoker);
    assert c.Some?;
    KeycapInjective(c.value, t);
    var run := ShowTrackSelection(invoker, queryWords, tracks, events, intent);
    var embed := CreateTracksEmbed(Join(queryWords, " "), tracks);
    assert run.effects == run.effects[..1 + t];
    PresentationIsQuiet(embed, t);
  }

  // ---------------------------------------------------------------------------
  // The Spotify account the effects act on
  // ---------------------------------------------------------------------------

  /** The parts of a Spotify account the bot's calls change: the playback
      queue, the track started by `play_track`, and the saved library. */
  datatype Account = Account(queue: seq<string>, started: Option<string>, library: set<string>)

  /** The account after one effect; effects on Discord leave it alone. */
  function ApplyEffect(a: Account, e: Effect): Account
  {
    match e
    case Queue(uri) => a.(queue := a.queue + [uri])
    case PlayTrack(uri) => a.(started := Some(uri))
    case SaveTrack(uri) => a.(library := a.library + {uri})
    case RemoveTrack(uri) => a.(library := a.library - {uri})
    case _ => a
  }

  /** The account after a trace of effects, in order. */
  function ApplyEffects(a: Account, effects: seq<Effect>): Account
    decreases |effects|
  {
    if |effects| == 0 then a else ApplyEffects(ApplyEffect(a, effects[0]), effects[1..])
  }

  lemma {:induction false} ApplyEffectsAppend(a: Account, x: seq<Effect>, y: seq<Effect>)
    ensures ApplyEffects(a, x + y) == ApplyEffects(ApplyEffects(a, x), y)
    decreases |x|
  {
    if |x| > 0 {
      assert (x + y)[0] == x[0];
      assert (x + y)[1..] == x[1..] + y;
      ApplyEffectsAppend(ApplyEffect(a, x[0]), x[1..], y);
    } else {
      assert x + y == y;
    }
  }

  /** Effects that are not Spotify calls leave the account as it was. */
  lemma {:induction false} ApplyNonSpotify(a: Account, effects: seq<Effect>)
    requires forall i :: 0 <= i < |effects| ==> !IsSpotifyCall(effects[i])
    ensures ApplyEffects(a, effects) == a
    decreases |effects|
  {
    if |effects| > 0 {
      ApplyNonSpotify(a, effects[1..]);
    }
  }

  /** A trace whose only Spotify call comes first acts as that call. */
  lemma OnlyFirstCalls(a: Account, effects: seq<Effect>)
    requires |effects| >= 1
    requires forall i :: 1 <= i < |effects| ==> !IsSpotifyCall(effects[i])
    ensures ApplyEffects(a, effects) == ApplyEffect(a, effects[0])
  {
    ApplyNonSpotify(ApplyEffect(a, effects[0]), effects[1..]);
  }

  /** The presentation part of a selection does not touch the account, so
      the account after the whole selection is the account after what
      follows the keycaps. */
  lemma SelectionAccount(invoker: int, query: seq<string>, tracks: seq<Track>,
                         events: seq<Reaction>, intent: Intent, a: Account)
    requires |tracks| <= 5
    ensures var run := ShowTrackSelection(invoker, query, tracks, events, intent);
      ApplyEffects(a, run.effects) == ApplyEffects(a, run.effects[1 + |tracks|..])
  {
    var run := ShowTrackSelection(invoker, query, tracks, events, intent);
    var head := run.effects[..1 + |tracks|];
    var tail := run.effects[1 + |tracks|..];
    assert run.effects == head + tail;
    PresentationIsQuiet(CreateTracksEmbed(Join(query, " "), tracks), |tracks|);
    ApplyEffectsAppend(a, head, tail);
    ApplyNonSpotify(a, head);
  }

  /** What follows the keycaps acts on the account through the chosen
      track's Spotify call alone, or not at all. */
  lemma SelectionTailAccount(invoker: int, query: seq<string>, tracks: seq<Track>,
                             events: seq<Reaction>, intent: Intent, a: Account)
    requires |tracks| <= 5
    ensures var run := ShowTrackSelection(invoker, query, tracks, events, intent);
      var c := ChosenKeycap(events, invoker);
      ApplyEffects(a, run.effects[1 + |tracks|..]) ==
        if c.Some? && c.value < |tracks| then ApplyEffect(a, TrackAction(intent, tracks[c.value])) else a
  {
    var run := ShowTrackSelection(invoker, query, tracks, events, intent);
    var tail := run.effects[1 + |tracks|..];
    var c := ChosenKeycap(events, invoker);
    if c.Some? && c.value < |tracks| {
      assert tail == TrackCallback(intent, tracks[c.value]);
      CallbackAccount(intent, tracks[c.value], a);
    } else {
      assert tail == [];
    }
  }

  /** A callback acts on the account through its Spotify call alone. */
  lemma CallbackAccount(intent: Intent, track: Track, a: Account)
    ensures ApplyEffects(a, TrackCallback(intent, track)) == ApplyEffect(a, TrackAction(intent, track))
  {
    var callback := TrackCallback(intent, track);
    QuietPrefix(a, callback, 1);
    assert callback[1..][1].SendEmbed?;
    OnlyFirstCalls(a, callback[1..]);
  }

  /** `queue` adds exactly the chosen track's URI to the end of the playback
      queue, and changes nothing when no listed track was chosen. */
  lemma QueueAppendsChosen(invoker: int, query: seq<string>, tracks: seq<Track>,
                           events: seq<Reaction>, a: Account)
    requires |tracks| <= 5
    ensures var run := ShowTrackSelection(invoker, query, tracks, events, QueueIntent);
      var c := ChosenKeycap(events, invoker);
      var after := ApplyEffects(a, run.effects);
      if c.Some? && c.value < |tracks| then after == a.(queue := a.queue + [tracks[c.value].uri])
      else after == a
  {
    SelectionAccount(invoker, query, tracks, events, QueueIntent, a);
    SelectionTailAccount(invoker, query, tracks, events, QueueIntent, a);
  }

  /** `play` with a query starts exactly the chosen track, and changes
      nothing when no listed track was chosen. */
  lemma PlayStartsChosen(invoker: int, query: seq<string>, tracks: seq<Track>,
                         events: seq<Reaction>, a: Account)
    requires |tracks| <= 5
    ensures var run := ShowTrackSelection(invoker, query, tracks, events, PlayIntent);
      var c := ChosenKeycap(events, invoker);
      var after := ApplyEffects(a, run.effects);
      if c.Some? && c.value < |tracks| then after == a.(started := Some(tracks[c.value].uri))
      else after == a
  {
    SelectionAccount(invoker, query, tracks, events, PlayIntent, a);
    SelectionTailAccount(invoker, query, tracks, events, PlayIntent, a);
  }

  // ---------------------------------------------------------------------------
  // now, handle_like, handle_dislike
  // ---------------------------------------------------------------------------

  /** The confirmation after removing `track` from the library. */
  function RemovedMessage(track: Track): string
  {
    "Removed " + track.name + " from your library."
  }

  /** The confirmation after saving `track` to the library. */
  function SavedMessage(track: Track): string
  {
    "Saved " + track.name + " to your library."
  }

  /** `handle_dislike`: on the invoker's broken-heart reaction, remove the
      track, delete the message, confirm; on timeout, nothing. */
  function HandleDislike(invoker: int, track: Track, events: seq<Reaction>): seq<Effect>
  {
    match WaitFor(events, invoker, EmojiText(BrokenHeartEmoji))
    case TimedOut => []
    case Received(_, _) =>
      [RemoveTrack(track.uri), Delete, Send(RemovedMessage(track))]
  }

  /** `handle_like`: on the invoker's heart reaction, save the track, delete
      the message, confirm; on timeout, nothing. */
  function HandleLike(invoker: int, track: Track, events: seq<Reaction>): seq<Effect>
  {
    match WaitFor(events, invoker, EmojiText(HeartEmoji))
    case TimedOut => []
    case Received(_, _) =>
      [SaveTrack(track.uri), Delete, Send(SavedMessage(track))]
  }

  /** Some event is the invoker's reaction named `heart` or named `""`. */
  predicate HeartReacted(events: seq<Reaction>, invoker: int, heart: string)
  {
    exists j :: 0 <= j < |events| && events[j].userId == invoker &&
      (events[j].emojiName == "" || events[j].emojiName == heart)
  }

  /** `now` for the currently playing `track`, given whether it is saved:
      show it, attach the broken heart and wait to remove it if it is saved,
      otherwise attach the heart and wait to save it. */
  function Now(invoker: int, track: Track, isSaved: bool, events: seq<Reaction>): (effects: seq<Effect>)
    ensures |effects| == 2 || |effects| == 5
    ensures effects[0] == SendEmbed(CreateTrackEmbed(track))
    ensures effects[1] == AddReaction(if isSaved then BrokenHeartEmoji else HeartEmoji)
    ensures if HeartReacted(events, invoker, if isSaved then BrokenHeartEmoji else HeartEmoji) then
        effects[2..] == (if isSaved
                         then [RemoveTrack(track.uri), Delete, Send(RemovedMessage(track))]
                         else [SaveTrack(track.uri), Delete, Send(SavedMessage(track))])
      else |effects| == 2
  {
    var heart := if isSaved then BrokenHeartEmoji else HeartEmoji;
    forall r: Reaction
      ensures ReactionCheck(invoker, EmojiText(heart), r) <==>
        r.userId == invoker && (r.emojiName == "" || r.emojiName == heart)
    {
      HeartCheckAccepts(invoker, r, heart);
    }
    var shown := [SendEmbed(CreateTrackEmbed(track)), AddReaction(heart)];
    if isSaved then shown + HandleDislike(invoker, track, events)
    else shown + HandleLike(invoker, track, events)
  }

  /** After `now` acts on a match, the track's saved state is the opposite
      of what it was; without a match the library is untouched. */
  lemma NowTogglesSaved(invoker: int, track: Track, events: seq<Reaction>, a: Account)
    ensures var isSaved := track.uri in a.library;
      var effects := Now(invoker, track, isSaved, events);
      var after := ApplyEffects(a, effects);
      if |effects| == 5 then
        (track.uri in after.library) == !isSaved &&
        after.library - {track.uri} == a.library - {track.uri}
      else after == a
  {
    var isSaved := track.uri in a.library;
    var effects := Now(invoker, track, isSaved, events);
    QuietPrefix(a, effects, 2);
    if |effects| == 5 {
      var call := if isSaved then RemoveTrack(track.uri) else SaveTrack(track.uri);
      var message := if isSaved then RemovedMessage(track) else SavedMessage(track);
      assert effects[2..] == [call, Delete, Send(message)];
      ConfirmedCallAccount(a, call, message);
      ToggleChangesOnlyTrack(a, track.uri, call);
    } else {
      assert effects[2..] == [];
    }
  }

  /** A Spotify call followed by a deletion and a message acts as the call. */
  lemma ConfirmedCallAccount(a: Account, call: Effect, message: string)
    ensures ApplyEffects(a, [call, Delete, Send(message)]) == ApplyEffect(a, call)
  {
    var effects := [call, Delete, Send(message)];
    assert effects[1..][1].Send?;
    OnlyFirstCalls(a, effects);
  }

  /** A prefix without Spotify calls can be dropped. */
  lemma QuietPrefix(a: Account, effects: seq<Effect>, k: nat)
    requires k <= |effects|
    requires forall i :: 0 <= i < k ==> !IsSpotifyCall(effects[i])
    ensures ApplyEffects(a, effects) == ApplyEffects(a, effects[k..])
  {
    assert effects == effects[..k] + effects[k..];
    ApplyEffectsAppend(a, effects[..k], effects[k..]);
    ApplyNonSpotify(a, effects[..k]);
  }

  /** Saving or removing a track changes only that track's membership. */
  lemma ToggleChangesOnlyTrack(a: Account, uri: string, call: Effect)
    requires call == RemoveTrack(uri) || call == SaveTrack(uri)
    ensures (uri in ApplyEffect(a, call).library) == call.SaveTrack?
    ensures ApplyEffect(a, call).library - {uri} == a.library - {uri}
  {
  }

  /** The like check's substring test lets a reaction with an empty emoji
      name through: the invoker's reaction named `""` saves the track. */
  lemma EmptyEmojiNameLikes(invoker: int, track: Track, messageId: int)
    ensures Now(invoker, track, false, [Reaction(invoker, "", messageId)])[2] == SaveTrack(track.uri)
  {
    var events := [Reaction(invoker, "", messageId)];
    assert events[0].userId == invoker && events[0].emojiName == "";
  }

  // ---------------------------------------------------------------------------
  // The checks around a command
  // ---------------------------------------------------------------------------

  /** What a command is invoked from: the guild, if not a DM, and the author. */
  datatype Context = Context(guild: Option<int>, author: int)

  /** A check's verdict and what it sent. */
  datatype Verdict = Verdict(passed: bool, effects: seq<Effect>)

  const GuildWarning: string := "For security reasons, spotiford should only be used via DM."
  const LoginPrompt: string := "For that, you have to be logged in."

  /** `disallow_guilds`: a command from a guild is refused with one warning. */
  function DisallowGuilds(context: Context): (v: Verdict)
    ensures v.passed <==> context.guild.None?
    ensures v.passed ==> v.effects == []
    ensures !v.passed ==> v.effects == [Send(GuildWarning)]
  {
    if context.guild.Some? then Verdict(false, [Send(GuildWarning)]) else Verdict(true, [])
  }

  /** `authenticate()`'s predicate: an author with a cached token passes and
      becomes the API's current user; anyone else is told to log in. */
  function Authenticate(table: TokenCache.Table, context: Context): (v: Verdict)
    ensures v.passed <==> context.author in table
    ensures v.passed ==> v.effects == [SetApiUser(context.author)]
    ensures !v.passed ==> v.effects == [Send(LoginPrompt)]
  {
    if !TokenCache.HasUser(table, context.author) then Verdict(false, [Send(LoginPrompt)])
    else Verdict(true, [SetApiUser(context.author)])
  }

  /** A command guarded by the global `disallow_guilds` check and then its
      own `authenticate()` check; the body runs only if both pass. */
  function Invoke(table: TokenCache.Table, context: Context, body: Run): (run: Run)
    ensures context.guild.Some? ==> run == Run([Send(GuildWarning)], Some(CheckFailure))
    ensures context.guild.None? && context.author !in table ==>
      run == Run([Send(LoginPrompt)], Some(CheckFailure))
    ensures context.guild.None? && context.author in table ==>
      run == Run([SetApiUser(context.author)] + body.effects, body.raised)
  {
    var dm := DisallowGuilds(context);
    if !dm.passed then Run(dm.effects, Some(CheckFailure))
    else
      var auth := Authenticate(table, context);
      if !auth.passed then Run(auth.effects, Some(CheckFailure))
      else Run(auth.effects + body.effects, body.raised)
  }

  /** Once `authenticate` lets an author through and sets them as the
      API's user, the token cache has a token for them. */
  lemma AuthenticatedUserHasToken(table: TokenCache.Table, context: Context, h: TokenCache.CacheHandler)
    requires Authenticate(table, context).passed
    ensures TokenCache.GetCachedToken(TokenCache.SetUser(h, context.author), table).Some?
  {
  }

  /** The `queue` command. */
  function QueueCommand(table: TokenCache.Table, context: Context, query: seq<string>,
                        tracks: seq<Track>, events: seq<Reaction>): Run
  {
    Invoke(table, context, ShowTrackSelection(context.author, query, tracks, events, QueueIntent))
  }

  /** The `play` command: with arguments, a track selection that plays the
      chosen track; without, `api.play()` resumes playback. */
  function PlayCommand(table: TokenCache.Table, context: Context, args: seq<string>,
                       tracks: seq<Track>, events: seq<Reaction>): Run
  {
    Invoke(table, context,
      if |args| > 0 then ShowTrackSelection(context.author, args, tracks, events, PlayIntent)
      else Run([Resume], None))
  }

  /** The `now` command. */
  function NowCommand(table: TokenCache.Table, context: Context, track: Track,
                      isSaved: bool, events: seq<Reaction>): Run
  {
    Invoke(table, context, Run(Now(context.author, track, isSaved, events), None))
  }

  /** Passing both checks adds only the `set_user` call, which leaves the
      account alone: the command's body decides the outcome. */
  lemma InvokePassesBody(table: TokenCache.Table, context: Context, body: Run, a: Account)
    requires context.guild.None? && context.author in table
    ensures Invoke(table, context, body).effects[0] == SetApiUser(context.author)
    ensures Invoke(table, context, body).raised == body.raised
    ensures ApplyEffects(a, Invoke(table, context, body).effects) == ApplyEffects(a, body.effects)
  {
    ApplyEffectsAppend(a, [SetApiUser(context.author)], body.effects);
  }

  /** What a selection ends with: `IndexError` exactly when the invoker
      picked a keycap past the end of the list. */
  function SelectionOutcome(tracks: seq<Track>, events: seq<Reaction>, invoker: int): Option<Raised>
    requires |tracks| <= 5
  {
    var c := ChosenKeycap(events, invoker);
    if c.Some? && c.value >= |tracks| then Some(IndexError) else None
  }

  /** `queue` from a DM by a logged-in author sets that author as the API's
      user and then queues exactly the chosen listed track, if any. */
  lemma QueueCommandQueuesChosen(table: TokenCache.Table, context: Context, query: seq<string>,
                                 tracks: seq<Track>, events: seq<Reaction>, a: Account)
    requires context.guild.None? && context.author in table && |tracks| <= 5
    ensures var run := QueueCommand(table, context, query, tracks, events);
      var c := ChosenKeycap(events, context.author);
      && run.effects[0] == SetApiUser(context.author)
      && run.raised == SelectionOutcome(tracks, events, context.author)
      && ApplyEffects(a, run.effects) ==
           (if c.Some? && c.value < |tracks| then a.(queue := a.queue + [tracks[c.value].uri]) else a)
  {
    var body := ShowTrackSelection(context.author, query, tracks, events, QueueIntent);
    InvokePassesBody(table, context, body, a);
    QueueAppendsChosen(context.author, query, tracks, events, a);
  }

  /** `play` without arguments only resumes playback; with arguments it
      starts exactly the chosen listed track, if any. */
  lemma PlayCommandPlays(table: TokenCache.Table, context: Context, args: seq<string>,
                         tracks: seq<Track>, events: seq<Reaction>, a: Account)
    requires context.guild.None? && context.author in table && |tracks| <= 5
    ensures |args| == 0 ==>
      PlayCommand(table, context, args, tracks, events) == Run([SetApiUser(context.author), Resume], None)
    ensures |args| > 0 ==>
      var run := PlayCommand(table, context, args, tracks, events);
      var c := ChosenKeycap(events, context.author);
      && run.raised == SelectionOutcome(tracks, events, context.author)
      && ApplyEffects(a, run.effects) ==
           (if c.Some? && c.value < |tracks| then a.(started := Some(tracks[c.value].uri)) else a)
  {
    if |args| > 0 {
      var body := ShowTrackSelection(context.author, args, tracks, events, PlayIntent);
      InvokePassesBody(table, context, body, a);
      PlayStartsChosen(context.author, args, tracks, events, a);
    }
  }

  /** A guarded command reaches Spotify only when it was sent in a DM by an
      author with a cached token. */
  lemma GuardedCommandsNeedDmAndToken(table: TokenCache.Table, context: Context, body: Run)
    requires exists i :: 0 <= i < |Invoke(table, context, body).effects| &&
                         IsSpotifyCall(Invoke(table, context, body).effects[i])
    ensures context.guild.None? && TokenCache.HasUser(table, context.author)
  {
  }
}

=== FILE: bot_utils.dfy ===
/** Emoji constants and artist formatting of `bot/utils.py`. */
module BotUtils {
  import opened Text
  import opened Spotify

  /** U+20E3 COMBINING ENCLOSING KEYCAP. */
  const KeycapMark: char := '\U{20E3}'

  /** The keycap emojis 1 through 5, in order. */
  const NumberEmojis: seq<string> := [
    "\U{0031}\U{20E3}",
    "\U{0032}\U{20E3}",
    "\U{0033}\U{20E3}",
    "\U{0034}\U{20E3}",
    "\U{0035}\U{20E3}"
  ]

  /** U+2764 HEAVY BLACK HEART. */
  const HeartEmoji: string := "\U{2764}"

  /** U+1F494 BROKEN HEART. */
  const BrokenHeartEmoji: string := "\U{1F494}"

  /** The keycap emoji for the 1-based position `i + 1`: its decimal digit
      followed by the keycap mark. */
  function Keycap(i: nat): string
    requires i < 9
  {
    [DigitChar(i + 1), KeycapMark]
  }

  /** Different positions have different keycaps. */
  lemma KeycapInjective(i: nat, j: nat)
    requires i < 9 && j < 9 && Keycap(i) == Keycap(j)
    ensures i == j
  {
    assert Keycap(i)[0] == Keycap(j)[0];
  }

  /** There are five keycap emojis, entry `i` being the keycap of `i + 1`. */
  lemma NumberEmojisAreKeycaps()
    ensures |NumberEmojis| == 5
    ensures forall i :: 0 <= i < 5 ==> NumberEmojis[i] == Keycap(i)
  {
  }

  /** No two keycap emojis are equal, so a keycap names one position. */
  lemma NumberEmojisDistinct()
    ensures forall i, j :: 0 <= i < j < |NumberEmojis| ==> NumberEmojis[i] != NumberEmojis[j]
  {
  }

  /** Both hearts are single code points, differ from each other and from
      every keycap emoji. */
  lemma HeartsAreDistinct()
    ensures |HeartEmoji| == 1 && |BrokenHeartEmoji| == 1
    ensures HeartEmoji != BrokenHeartEmoji
    ensures forall i :: 0 <= i < |NumberEmojis| ==>
      NumberEmojis[i] != HeartEmoji && NumberEmojis[i] != BrokenHeartEmoji
  {
  }

  /** `[artist["name"] for artist in artists]`. */
  function ArtistNames(artists: seq<Artist>): (names: seq<string>)
    ensures |names| == |artists|
    ensures forall i :: 0 <= i < |artists| ==> names[i] == artists[i].name
  {
    seq(|artists|, i requires 0 <= i < |artists| => artists[i].name)
  }

  /** The separator `concat_track_artists` puts between artist names. */
  const ArtistSeparator: string := ", "

  /** The track's artist names, comma-separated. */
  function ConcatTrackArtists(track: Track): (s: string)
    ensures |track.artists| == 0 ==> s == ""
    ensures |track.artists| == 1 ==> s == track.artists[0].name
    ensures |track.artists| >= 1 ==>
      |s| == TotalLength(ArtistNames(track.artists)) + 2 * (|track.artists| - 1)
  {
    var names := ArtistNames(track.artists);
    if |names| >= 1 then JoinLength(names, ArtistSeparator); Join(names, ArtistSeparator)
    else Join(names, ArtistSeparator)
  }

  /** Artist `i`'s name appears at its offset in the concatenation, in
      track order, followed by ", " unless it is the last one. */
  lemma ArtistsInOrder(track: Track, i: nat)
    requires i < |track.artists|
    ensures var names := ArtistNames(track.artists);
      var o := PartOffset(names, ArtistSeparator, i);
      var s := ConcatTrackArtists(track);
      && o + |track.artists[i].name| <= |s|
      && s[o..o + |track.artists[i].name|] == track.artists[i].name
      && (i + 1 < |track.artists| ==>
            var e := o + |track.artists[i].name|;
            e + 2 <= |s| && s[e..e + 2] == ArtistSeparator)
  {
    JoinPlacesParts(ArtistNames(track.artists), ArtistSeparator, i);
  }

  /** When no artist name holds a comma, `s.split(", ")` recovers the
      artist names from the concatenation. */
  lemma ArtistsRecoverable(track: Track)
    requires |track.artists| >= 1
    requires forall i :: 0 <= i < |track.artists| ==> Avoids(track.artists[i].name, ',')
    ensures Split(ConcatTrackArtists(track), ArtistSeparator) == ArtistNames(track.artists)
  {
    SplitJoin(ArtistNames(track.artists), ArtistSeparator);
  }
}

=== FILE: draft_utils.dfy ===
/** The earlier top-level `utils.py`: its own copy of the keycap list and of
    `concat_track_artists`, without the heart emojis. */
module DraftUtils {
  import opened Text
  import opened Spotify
  import BotUtils

  /** The keycap emojis 1 through 5, as the draft spells them. */
  const NumberEmojis: seq<string> := [
    "\U{0031}\U{20E3}",
    "\U{0032}\U{20E3}",
    "\U{0033}\U{20E3}",
    "\U{0034}\U{20E3}",
    "\U{0035}\U{20E3}"
  ]

  /** The draft's artist concatenation. It agrees with the one in
      `bot/utils.py` on every track, and so inherits its properties. */
  function ConcatTrackArtists(track: Track): (s: string)
    ensures s == BotUtils.ConcatTrackArtists(track)
  {
    var names := seq(|track.artists|, i requires 0 <= i < |track.artists| => track.artists[i].name);
    assert names == BotUtils.ArtistNames(track.artists);
    Join(names, ", ")
  }

  /** The draft's keycap list is the bot's: five distinct keycaps, entry
      `i` being the digit of `i + 1` followed by the keycap mark. */
  lemma NumberEmojisAgree()
    ensures NumberEmojis == BotUtils.NumberEmojis
    ensures |NumberEmojis| == 5
    ensures forall i :: 0 <= i < 5 ==> NumberEmojis[i] == BotUtils.Keycap(i)
    ensures forall i, j :: 0 <= i < j < 5 ==> NumberEmojis[i] != NumberEmojis[j]
  {
    BotUtils.NumberEmojisAreKeycaps();
    BotUtils.NumberEmojisDistinct();
  }
}

=== FILE: embeds.dfy ===
/** The Discord embeds of `bot/embeds.py`, as plain records: a title, an
    optional description and the fields in the order they were added. */
module Embeds {
  import opened Wrappers
  import opened Text
  import opened Spotify
  import opened BotUtils

  /** One `embed.add_field(name=..., value=..., inline=...)`. */
  datatype Field = Field(name: string, value: string, inline: bool)

  /** An embed; `description` is `None` when the constructor was not given one. */
  datatype Embed = Embed(title: string, description: Option<string>, fields: seq<Field>)

  /** The heading of a track list: `Results for '<query>'`. */
  function ResultsTitle(query: string): string
  {
    "Results for '" + query + "'"
  }

  /** The field that lists `track` at 0-based position `index`: its 1-based
      number, artists and name, with the album name underneath. */
  function TrackField(index: nat, track: Track): Field
  {
    Field("#" + NatToDecimal(index + 1) + " " + ConcatTrackArtists(track) + " - " + track.name,
          track.album.name,
          false)
  }

  /** The fields added by the `for index, track in enumerate(response)`
      loop, one `add_field` per track, appended in track order. */
  function TrackFields(tracks: seq<Track>): (fields: seq<Field>)
    ensures |fields| == |tracks|
    ensures forall i :: 0 <= i < |tracks| ==> fields[i] == TrackField(i, tracks[i])
    decreases |tracks|
  {
    if |tracks| == 0 then []
    else TrackFields(tracks[..|tracks| - 1]) + [TrackField(|tracks| - 1, tracks[|tracks| - 1])]
  }

  /** `create_tracks_embed(query, response)`: titled after the query, one
      field per track in track order, field `i` numbered `i + 1`, naming
      the track's artists and title and holding its album name. */
  function CreateTracksEmbed(query: string, tracks: seq<Track>): (e: Embed)
    ensures e.title == "Results for '" + query + "'"
    ensures e.description == None
    ensures |e.fields| == |tracks|
    ensures forall i :: 0 <= i < |tracks| ==>
      && e.fields[i].name == "#" + NatToDecimal(i + 1) + " " + ConcatTrackArtists(tracks[i]) + " - " + tracks[i].name
      && e.fields[i].value == tracks[i].album.name
      && !e.fields[i].inline
  {
    Embed(ResultsTitle(query), None, TrackFields(tracks))
  }

  /** `create_track_embed(track)`: titled with the track name, described by
      its artists, without fields. The thumbnail is not part of this model. */
  function CreateTrackEmbed(track: Track): (e: Embed)
    ensures e.title == track.name
    ensures e.description == Some(ConcatTrackArtists(track))
    ensures e.fields == []
  {
    Embed(track.name, Some(ConcatTrackArtists(track)), [])
  }

  /** The single-track embed names the track in its title, and when no
      artist name holds a comma its description reads back, split on ", ",
      as the track's artist names in order. */
  lemma TrackEmbedDescribesTrack(track: Track)
    requires |track.artists| >= 1
    requires forall i :: 0 <= i < |track.artists| ==> Avoids(track.artists[i].name, ',')
    ensures CreateTrackEmbed(track).title == track.name
    ensures Split(CreateTrackEmbed(track).description.value, ArtistSeparator) == ArtistNames(track.artists)
  {
    ArtistsRecoverable(track);
  }

  /** The number a reader sees at the head of a field name: the digits
      after a leading `#`. */
  function FieldNumber(name: string): Option<nat>
  {
    if |name| > 0 && name[0] == '#' then
      var digits := DigitPrefix(name[1..]);
      if |digits| > 0 then Some(DecimalValue(digits)) else None
    else None
  }

  /** Every field of a tracks embed reads back as its 1-based position. */
  lemma FieldNumbersArePositions(query: string, tracks: seq<Track>, i: nat)
    requires i < |tracks|
    ensures FieldNumber(CreateTracksEmbed(query, tracks).fields[i].name) == Some(i + 1)
  {
    var name := CreateTracksEmbed(query, tracks).fields[i].name;
    var digits := NatToDecimal(i + 1);
    var rest := " " + ConcatTrackArtists(tracks[i]) + " - " + tracks[i].name;
    assert name == "#" + (digits + rest);
    assert name[1..] == digits + rest;
    DigitPrefixStops(digits, rest);
    DecimalRoundTrip(i + 1);
  }

  /** For each of the five keycap positions, the number printed in field
      `i` is exactly the digit on keycap emoji `i`: the reaction a reader
      picks for a listed track carries that track's number. */
  lemma FieldNumbersMatchKeycaps(query: string, tracks: seq<Track>, i: nat)
    requires i < |tracks| && i < |NumberEmojis|
    ensures var name := CreateTracksEmbed(query, tracks).fields[i].name;
      |name| >= 3 && name[..3] == ['#', NumberEmojis[i][0], ' ']
  {
    NumberEmojisAreKeycaps();
    var name := CreateTracksEmbed(query, tracks).fields[i].name;
    assert NatToDecimal(i + 1) == [DigitChar(i + 1)];
    assert name == ['#', DigitChar(i + 1), ' '] + (ConcatTrackArtists(tracks[i]) + " - " + tracks[i].name);
  }
}

=== FILE: spotify.dfy ===
/** The parts of a Spotify Web API track object that the bot reads:
    `track["uri"]`, `track["name"]`, `track["artists"][k]["name"]` and
    `track["album"]["name"]`. */
module Spotify {

  datatype Artist = Artist(name: string)

  datatype Album = Album(name: string)

  datatype Track = Track(uri: string, name: string, artists: seq<Artist>, album: Album)
}

=== FILE: text.dfy ===
/** The Python string built-ins the bot relies on: `sep.join(parts)`,
    `s.split(sep)` and `str(n)` for a non-negative integer. */
module Text {

  // ---------------------------------------------------------------------------
  // str.join
  // ---------------------------------------------------------------------------

  /** `sep.join(parts)`: the parts in order, with `sep` between neighbours. */
  function Join(parts: seq<string>, sep: string): string
    decreases |parts|
  {
    if |parts| == 0 then ""
    else if |parts| == 1 then parts[0]
    else parts[0] + sep + Join(parts[1..], sep)
  }

  /** The sum of the lengths of `parts`. */
  function TotalLength(parts: seq<string>): nat
    decreases |parts|
  {
    if |parts| == 0 then 0 else |parts[0]| + TotalLength(parts[1..])
  }

  /** The offset at which `parts[i]` starts inside `Join(parts, sep)`. */
  function PartOffset(parts: seq<string>, sep: string, i: nat): nat
    requires i <= |parts|
  {
    TotalLength(parts[..i]) + |sep| * i
  }

  /** A joined string is as long as its parts plus one separator per gap. */
  lemma {:induction false} JoinLength(parts: seq<string>, sep: string)
    requires |parts| >= 1
    ensures |Join(parts, sep)| == TotalLength(parts) + |sep| * (|parts| - 1)
    decreases |parts|
  {
    if |parts| > 1 {
      JoinLength(parts[1..], sep);
    }
  }

  /** Appending one more part appends a separator and that part: the
      left-to-right way CPython builds the joined string. */
  lemma {:induction false} JoinSnoc(parts: seq<string>, last: string, sep: string)
    requires |parts| >= 1
    ensures Join(parts + [last], sep) == Join(parts, sep) + sep + last
    decreases |parts|
  {
    if |parts| == 1 {
      assert parts + [last] == [parts[0], last];
      assert [parts[0], last][1..] == [last];
    } else {
      JoinSnoc(parts[1..], last, sep);
      assert (parts + [last])[1..] == parts[1..] + [last];
    }
  }

  lemma TotalLengthPrefixStep(parts: seq<string>, i: nat)
    requires 1 <= i <= |parts|
    ensures TotalLength(parts[..i]) == |parts[0]| + TotalLength(parts[1..][..i - 1])
  {
    assert parts[..i][1..] == parts[1..][..i - 1];
  }

  /** Part `i` of `parts` starts one part and one separator later than
      part `i - 1` of `parts[1..]`. */
  lemma PartOffsetStep(parts: seq<string>, sep: string, i: nat)
    requires 1 <= i <= |parts|
    ensures PartOffset(parts, sep, i) == |parts[0]| + |sep| + PartOffset(parts[1..], sep, i - 1)
  {
    TotalLengthPrefixStep(parts, i);
    assert |sep| * i == |sep| * (i - 1) + |sep|;
  }

  /** A slice of `x + y` lying wholly inside `y` is a slice of `y`. */
  lemma SliceRight(x: string, y: string, lo: nat, hi: nat)
    requires |x| <= lo <= hi <= |x| + |y|
    ensures (x + y)[lo..hi] == y[lo - |x|..hi - |x|]
  {
    assert forall k :: lo <= k < hi ==> (x + y)[k] == y[k - |x|];
  }

  /** The first part and, if there is a second, the separator after it. */
  lemma JoinHead(parts: seq<string>, sep: string)
    requires |parts| >= 1
    ensures |parts[0]| <= |Join(parts, sep)|
    ensures Join(parts, sep)[..|parts[0]|] == parts[0]
    ensures |parts| > 1 ==>
      && |parts[0]| + |sep| <= |Join(parts, sep)|
      && Join(parts, sep)[|parts[0]|..|parts[0]| + |sep|] == sep
  {
    if |parts| > 1 {
      var rest := Join(parts[1..], sep);
      assert Join(parts, sep) == parts[0] + (sep + rest);
      SliceRight(parts[0], sep + rest, |parts[0]|, |parts[0]| + |sep|);
    }
  }

  /** Every part sits, unchanged and in order, at its offset in the joined
      string, and a separator follows every part but the last. */
  lemma {:induction false} JoinPlacesParts(parts: seq<string>, sep: string, i: nat)
    requires i < |parts|
    ensures PartOffset(parts, sep, i) + |parts[i]| <= |Join(parts, sep)|
    ensures Join(parts, sep)[PartOffset(parts, sep, i)..PartOffset(parts, sep, i) + |parts[i]|] == parts[i]
    ensures i + 1 < |parts| ==>
      var end := PartOffset(parts, sep, i) + |parts[i]|;
      end + |sep| <= |Join(parts, sep)| && Join(parts, sep)[end..end + |sep|] == sep
    decreases i
  {
    if i == 0 {
      assert parts[..0] == [];
      JoinHead(parts, sep);
    } else {
      var tail := parts[1..];
      JoinPlacesParts(tail, sep, i - 1);
      PartOffsetStep(parts, sep, i);
      JoinShift(parts, sep, PartOffset(tail, sep, i - 1), |parts[i]|);
      if i + 1 < |parts| {
        var e := PartOffset(tail, sep, i - 1) + |parts[i]|;
        JoinShift(parts, sep, e, |sep|);
      }
    }
  }

  /** A slice of the join of `parts[1..]` reappears one part and one
      separator further on in the join of `parts`. */
  lemma JoinShift(parts: seq<string>, sep: string, lo: nat, len: nat)
    requires |parts| >= 2
    requires lo + len <= |Join(parts[1..], sep)|
    ensures var shift := |parts[0]| + |sep|;
      && shift + lo + len <= |Join(parts, sep)|
      && Join(parts, sep)[shift + lo..shift + lo + len] == Join(parts[1..], sep)[lo..lo + len]
  {
    var front := parts[0] + sep;
    assert Join(parts, sep) == front + Join(parts[1..], sep);
    SliceRight(front, Join(parts[1..], sep), |front| + lo, |front| + lo + len);
  }

  // ---------------------------------------------------------------------------
  // str.split
  // ---------------------------------------------------------------------------

  /** `s.split(sep)` for a non-empty separator: cut at each leftmost
      non-overlapping occurrence of `sep`. */
  function Split(s: string, sep: string): (r: seq<string>)
    requires |sep| > 0
    ensures |r| >= 1
    decreases |s|
  {
    if |s| < |sep| then [s]
    else if s[..|sep|] == sep then [""] + Split(s[|sep|..], sep)
    else
      var rest := Split(s[1..], sep);
      [[s[0]] + rest[0]] + rest[1..]
  }

  /** `c` does not occur in `s`. */
  predicate Avoids(s: string, c: char)
  {
    forall k :: 0 <= k < |s| ==> s[k] != c
  }

  lemma {:induction false} SplitWithoutSeparator(p: string, sep: string)
    requires |sep| > 0 && Avoids(p, sep[0])
    ensures Split(p, sep) == [p]
    decreases |p|
  {
    if |p| >= |sep| {
      assert p[..|sep|][0] != sep[0];
      SplitWithoutSeparator(p[1..], sep);
      assert [p[0]] + p[1..] == p;
    }
  }

  lemma {:induction false} SplitAfterPart(p: string, sep: string, t: string)
    requires |sep| > 0 && Avoids(p, sep[0])
    ensures Split(p + sep + t, sep) == [p] + Split(t, sep)
    decreases |p|
  {
    var s := p + sep + t;
    if |p| == 0 {
      assert s == sep + t;
      assert s[..|sep|] == sep;
      assert s[|sep|..] == t;
    } else {
      assert s[..|sep|][0] == p[0] != sep[0];
      assert s[1..] == p[1..] + sep + t;
      SplitAfterPart(p[1..], sep, t);
      assert [p[0]] + p[1..] == p;
    }
  }

  /** Splitting undoes joining when no part holds the separator's first
      character. */
  lemma {:induction false} SplitJoin(parts: seq<string>, sep: string)
    requires |sep| > 0 && |parts| >= 1
    requires forall i :: 0 <= i < |parts| ==> Avoids(parts[i], sep[0])
    ensures Split(Join(parts, sep), sep) == parts
    decreases |parts|
  {
    if |parts| == 1 {
      SplitWithoutSeparator(parts[0], sep);
    } else {
      SplitJoin(parts[1..], sep);
      SplitAfterPart(parts[0], sep, Join(parts[1..], sep));
      assert [parts[0]] + parts[1..] == parts;
    }
  }

  // ---------------------------------------------------------------------------
  // str(n) for n >= 0
  // ---------------------------------------------------------------------------

  predicate IsDigit(c: char)
  {
    '0' <= c <= '9'
  }

  predicate AllDigits(s: string)
  {
    forall k :: 0 <= k < |s| ==> IsDigit(s[k])
  }

  function DigitChar(d: nat): (c: char)
    requires d < 10
    ensures IsDigit(c)
  {
    (('0' as int) + d) as char
  }

  function DigitValue(c: char): nat
    requires IsDigit(c)
  {
    (c as int) - ('0' as int)
  }

  /** `str(n)`: decimal digits, most significant first, no leading zero. */
  function NatToDecimal(n: nat): (s: string)
    ensures |s| >= 1 && AllDigits(s)
    ensures n > 0 ==> s[0] != '0'
    ensures n < 10 ==> s == [DigitChar(n)]
    decreases n
  {
    if n < 10 then [DigitChar(n)] else NatToDecimal(n / 10) + [DigitChar(n % 10)]
  }

  /** `int(s)` for a string of decimal digits. */
  function DecimalValue(s: string): nat
    requires AllDigits(s)
    decreases |s|
  {
    if |s| == 0 then 0 else DecimalValue(s[..|s| - 1]) * 10 + DigitValue(s[|s| - 1])
  }

  /** Reading back a printed number gives the number. */
  lemma {:induction false} DecimalRoundTrip(n: nat)
    ensures DecimalValue(NatToDecimal(n)) == n
    decreases n
  {
    if n >= 10 {
      DecimalRoundTrip(n / 10);
      var s := NatToDecimal(n);
      assert s[..|s| - 1] == NatToDecimal(n / 10);
    }
  }

  /** The longest prefix of `s` made of decimal digits. */
  function DigitPrefix(s: string): (d: string)
    ensures AllDigits(d) && |d| <= |s|
    decreases |s|
  {
    if |s| == 0 || !IsDigit(s[0]) then "" else [s[0]] + DigitPrefix(s[1..])
  }

  lemma {:induction false} DigitPrefixStops(d: string, rest: string)
    requires AllDigits(d)
    requires |rest| > 0 && !IsDigit(rest[0])
    ensures DigitPrefix(d + rest) == d
    decreases |d|
  {
    if |d| == 0 {
      assert d + rest == rest;
    } else {
      assert (d + rest)[1..] == d[1..] + rest;
      DigitPrefixStops(d[1..], rest);
      assert [d[0]] + d[1..] == d;
    }
  }

  // ---------------------------------------------------------------------------
  // `needle in hay` for two strings
  // ---------------------------------------------------------------------------

  /** `needle` occurs in `hay` starting at index `i`. */
  predicate OccursAt(needle: string, hay: string, i: int)
  {
    0 <= i <= |hay| - |needle| && hay[i..i + |needle|] == needle
  }

  /** Python's `needle in hay` on strings: `needle` occurs as a contiguous
      run of `hay`. The empty string occurs in every string. */
  predicate IsSubstring(needle: string, hay: string)
  {
    exists i | 0 <= i <= |hay| :: OccursAt(needle, hay, i)
  }

  /** The only substrings of a one-character string are `""` and itself. */
  lemma SubstringOfOneChar(needle: string, c: char)
    ensures IsSubstring(needle, [c]) <==> needle == "" || needle == [c]
  {
    var hay: string := [c];
    if IsSubstring(needle, hay) {
      var i :| 0 <= i <= |hay| && OccursAt(needle, hay, i);
      assert 0 <= i <= |hay| - |needle| && hay[i..i + |needle|] == needle;
    }
    if needle == "" {
      assert OccursAt(needle, [c], 0);
    } else if needle == [c] {
      assert OccursAt(needle, [c], 0);
    }
  }
}

=== FILE: token_cache.dfy ===
/** The token cache of `cache/db_manager.py`. The SQLite `user` table,
    keyed by its `discord_id INTEGER PRIMARY KEY`, is a finite map from
    that key to the six token columns; connection, cursor and commit are
    not modelled. */
module TokenCache {
  import opened Wrappers

  /** A value bound to or read from SQLite: a Python `int` or `str`. */
  datatype Value = Int(i: int) | Text(s: string)

  /** The columns `get_cached_token` selects, in the order it selects them. */
  const TokenColumns: seq<string> :=
    ["access_token", "token_type", "expires_in", "refresh_token", "scope", "expires_at"]

  /** The named parameters of the insert, in the order they appear. */
  const InsertParameters: seq<string> :=
    ["discord_id", "access_token", "token_type", "expires_in", "refresh_token", "scope", "expires_at"]

  /** The non-key columns of one `user` row. */
  datatype Row = Row(accessToken: Value, tokenType: Value, expiresIn: Value,
                     refreshToken: Value, scope: Value, expiresAt: Value)

  /** The `user` table: primary key to row. */
  type Table = map<int, Row>

  /** Why an insert is refused. */
  datatype DbError =
    | MissingParameter(name: string)   // sqlite3.ProgrammingError: no value for a named binding
    | IntegerOverflow(name: string)    // OverflowError: a Python int beyond SQLite's 64-bit INTEGER
    | DatatypeMismatch                 // sqlite3 refuses a non-integer INTEGER PRIMARY KEY

  const MinInt64: int := -0x8000_0000_0000_0000
  const MaxInt64: int := 0x7FFF_FFFF_FFFF_FFFF

  /** A value SQLite can bind. */
  predicate Bindable(v: Value)
  {
    v.Int? ==> MinInt64 <= v.i <= MaxInt64
  }

  /** A row's columns in `TokenColumns` order, as the cursor returns them. */
  function RowValues(r: Row): (vs: seq<Value>)
    ensures |vs| == |TokenColumns|
  {
    [r.accessToken, r.tokenType, r.expiresIn, r.refreshToken, r.scope, r.expiresAt]
  }

  /** The columns named in `columns`, all distinct. */
  predicate Distinct(columns: seq<string>)
  {
    forall i, j :: 0 <= i < j < |columns| ==> columns[i] != columns[j]
  }

  /** `dict_factory(cursor, row)`: column `i`'s name maps to `row[i]`,
      added in column order, so a repeated name keeps its last value. */
  function DictFactory(columns: seq<string>, row: seq<Value>): (d: map<string, Value>)
    requires |columns| <= |row|
    ensures d.Keys == set c | c in columns
    ensures |columns| > 0 ==> d[columns[|columns| - 1]] == row[|columns| - 1]
    decreases |columns|
  {
    if |columns| == 0 then map[]
    else
      var n := |columns| - 1;
      var front := DictFactory(columns[..n], row);
      assert (set c | c in columns) == (set c | c in columns[..n]) + {columns[n]};
      front[columns[n] := row[n]]
  }

  /** A column name that does not occur again later maps to the value at
      its own index. */
  lemma {:induction false} DictFactoryAt(columns: seq<string>, row: seq<Value>, i: nat)
    requires |columns| <= |row| && i < |columns|
    requires columns[i] !in columns[i + 1..]
    ensures DictFactory(columns, row)[columns[i]] == row[i]
    decreases |columns|
  {
    var n := |columns| - 1;
    if i < n {
      var front := columns[..n];
      assert columns[i + 1..] == front[i + 1..] + [columns[n]];
      DictFactoryAt(front, row, i);
    }
  }

  /** With distinct column names, `dict_factory` has exactly those keys and
      pairs each with the value at the same index. */
  lemma DictFactoryDistinct(columns: seq<string>, row: seq<Value>)
    requires |columns| <= |row| && Distinct(columns)
    ensures |DictFactory(columns, row)| == |columns|
    ensures forall i :: 0 <= i < |columns| ==> DictFactory(columns, row)[columns[i]] == row[i]
  {
    forall i | 0 <= i < |columns|
      ensures DictFactory(columns, row)[columns[i]] == row[i]
    {
      assert columns[i] !in columns[i + 1..];
      DictFactoryAt(columns, row, i);
    }
    DistinctCardinality(columns);
  }

  lemma {:induction false} DistinctCardinality(columns: seq<string>)
    requires Distinct(columns)
    ensures |set c | c in columns| == |columns|
    decreases |columns|
  {
    if |columns| > 0 {
      var n := |columns| - 1;
      var front := columns[..n];
      DistinctCardinality(front);
      assert (set c | c in columns) == (set c | c in front) + {columns[n]};
      assert columns[n] !in (set c | c in front);
    }
  }

  /** `has_user(discord_id)`: `SELECT COUNT(*)`, read through `dict_factory`,
      compared with zero. */
  function HasUser(table: Table, discordId: int): (r: bool)
    ensures r <==> discordId in table
  {
    var count := if discordId in table then 1 else 0;
    var result := DictFactory(["COUNT(*)"], [Int(count)]);
    result["COUNT(*)"] != Int(0)
  }

  /** `DatabaseCacheHandler`: the user whose token is read and written. */
  datatype CacheHandler = CacheHandler(currentUser: Value)

  /** `DatabaseCacheHandler()`: no user yet, `current_user` is `""`. */
  function NewCacheHandler(): (h: CacheHandler)
    ensures h.currentUser.Text? && h.currentUser.s == ""
  {
    CacheHandler(Text(""))
  }

  /** `api.set_user(discord_id)` in `music/api.py`. */
  function SetUser(h: CacheHandler, discordId: int): (h': CacheHandler)
    ensures h'.currentUser == Int(discordId)
  {
    h.(currentUser := Int(discordId))
  }

  /** The dict a `user` row's token columns describe. */
  function TokenDict(r: Row): map<string, Value>
  {
    map["access_token" := r.accessToken, "token_type" := r.tokenType,
        "expires_in" := r.expiresIn, "refresh_token" := r.refreshToken,
        "scope" := r.scope, "expires_at" := r.expiresAt]
  }

  /** Adding one more column adds its entry, overwriting any earlier one. */
  lemma DictFactorySnoc(columns: seq<string>, c: string, row: seq<Value>)
    requires |columns| < |row|
    ensures DictFactory(columns + [c], row) == DictFactory(columns, row)[c := row[|columns|]]
  {
    assert (columns + [c])[..|columns|] == columns;
  }

  /** The dict of the first `k` token columns, built one column at a time
      as the `for` loop of `dict_factory` does. */
  function ColumnsDict(vs: seq<Value>, k: nat): map<string, Value>
    requires k <= |TokenColumns| <= |vs|
  {
    if k == 0 then map[] else ColumnsDict(vs, k - 1)[TokenColumns[k - 1] := vs[k - 1]]
  }

  /** `dict_factory` over the first `k` token columns: each step adds the
      next column's entry. */
  lemma {:induction false} TokenColumnsPrefix(vs: seq<Value>, k: nat)
    requires k <= |TokenColumns| <= |vs|
    ensures DictFactory(TokenColumns[..k], vs) == ColumnsDict(vs, k)
  {
    if k == 0 {
      assert TokenColumns[..0] == [];
    } else {
      TokenColumnsPrefix(vs, k - 1);
      DictFactorySnoc(TokenColumns[..k - 1], TokenColumns[k - 1], vs);
      assert TokenColumns[..k - 1] + [TokenColumns[k - 1]] == TokenColumns[..k];
    }
  }

  /** All six token columns, named one by one. */
  lemma AllColumnsDict(vs: seq<Value>)
    requires |vs| == |TokenColumns|
    ensures ColumnsDict(vs, 6) == map[]["access_token" := vs[0]]["token_type" := vs[1]]["expires_in" := vs[2]]["refresh_token" := vs[3]]["scope" := vs[4]]["expires_at" := vs[5]]
  {
    assert ColumnsDict(vs, 1) == map[]["access_token" := vs[0]];
    assert ColumnsDict(vs, 2) == ColumnsDict(vs, 1)["token_type" := vs[1]];
    assert ColumnsDict(vs, 3) == ColumnsDict(vs, 2)["expires_in" := vs[2]];
    assert ColumnsDict(vs, 4) == ColumnsDict(vs, 3)["refresh_token" := vs[3]];
    assert ColumnsDict(vs, 5) == ColumnsDict(vs, 4)["scope" := vs[4]];
  }

  /** `dict_factory` over the selected token columns yields the row's dict. */
  lemma TokenRowAsDict(r: Row)
    ensures DictFactory(TokenColumns, RowValues(r)) == TokenDict(r)
  {
    var vs := RowValues(r);
    TokenColumnsPrefix(vs, |TokenColumns|);
    assert TokenColumns[..|TokenColumns|] == TokenColumns;
    AllColumnsDict(vs);
  }

  /** `get_cached_token()`: the six token columns of `current_user`'s row as
      a dict, or `None` when no row has that key. An integer column never
      equals the text `""`, so a handler with no user finds nothing. */
  function GetCachedToken(h: CacheHandler, table: Table): (r: Option<map<string, Value>>)
    ensures r.Some? <==> h.currentUser.Int? && h.currentUser.i in table
    ensures r.Some? ==> r.value == TokenDict(table[h.currentUser.i])
  {
    if h.currentUser.Int? && h.currentUser.i in table then
      TokenRowAsDict(table[h.currentUser.i]);
      Some(DictFactory(TokenColumns, RowValues(table[h.currentUser.i])))
    else None
  }

  /** Binds the named parameters in order against `args`, stopping at the
      first one that is missing or too wide for SQLite. */
  function Bind(params: seq<string>, args: map<string, Value>): (r: Result<seq<Value>, DbError>)
    ensures r.Success? <==> forall c :: c in params ==> c in args && Bindable(args[c])
    ensures r.Success? ==>
      && |r.value| == |params|
      && forall i :: 0 <= i < |params| ==> r.value[i] == args[params[i]]
    ensures r.Failure? ==>
      exists i ::
        && 0 <= i < |params|
        && (forall j :: 0 <= j < i ==> params[j] in args && Bindable(args[params[j]]))
        && (if params[i] !in args then r.error == MissingParameter(params[i])
            else !Bindable(args[params[i]]) && r.error == IntegerOverflow(params[i]))
    decreases |params|
  {
    if |params| == 0 then Success([])
    else if params[0] !in args then Failure(MissingParameter(params[0]))
    else if !Bindable(args[params[0]]) then Failure(IntegerOverflow(params[0]))
    else match Bind(params[1..], args)
      case Success(vs) => Success([args[params[0]]] + vs)
      case Failure(e) => Failure(e)
  }

  /** The insert's parameter dict: `{"discord_id": current_user} | token_info`,
      where `token_info`'s entries win. */
  function InsertArguments(h: CacheHandler, tokenInfo: map<string, Value>): map<string, Value>
  {
    map["discord_id" := h.currentUser] + tokenInfo
  }

  /** Every token column has a value in `args`. The six names are spelled
      out rather than quantified over `TokenColumns`: the quantified form
      pushes the save and read-back proofs past the solver's budget.
      `TokenFieldsAreColumns` shows the two forms agree. */
  predicate HasTokenFields(args: map<string, Value>)
  {
    && "access_token" in args && "token_type" in args && "expires_in" in args
    && "refresh_token" in args && "scope" in args && "expires_at" in args
  }

  /** `HasTokenFields` asks exactly for the columns `get_cached_token` selects. */
  lemma TokenFieldsAreColumns(args: map<string, Value>)
    ensures HasTokenFields(args) <==> forall c :: c in TokenColumns ==> c in args
  {
    if HasTokenFields(args) {
      forall c | c in TokenColumns
        ensures c in args
      {
        var i :| 0 <= i < |TokenColumns| && TokenColumns[i] == c;
      }
    }
    if forall c :: c in TokenColumns ==> c in args {
      assert TokenColumns[0] in args && TokenColumns[1] in args && TokenColumns[2] in args;
      assert TokenColumns[3] in args && TokenColumns[4] in args && TokenColumns[5] in args;
    }
  }

  /** The row the insert writes, read from its parameter dict. */
  function RowOf(args: map<string, Value>): Row
    requires HasTokenFields(args)
  {
    Row(args["access_token"], args["token_type"], args["expires_in"],
        args["refresh_token"], args["scope"], args["expires_at"])
  }

  /** The insert can run: every parameter is present and bindable and the
      key is an integer. */
  predicate Insertable(args: map<string, Value>)
  {
    && "discord_id" in args && args["discord_id"].Int?
    && forall c :: c in InsertParameters ==> c in args && Bindable(args[c])
  }

  lemma InsertableHasTokenFields(args: map<string, Value>)
    requires Insertable(args)
    ensures HasTokenFields(args)
  {
    assert "access_token" in InsertParameters && "token_type" in InsertParameters;
    assert "expires_in" in InsertParameters && "refresh_token" in InsertParameters;
    assert "scope" in InsertParameters && "expires_at" in InsertParameters;
  }

  /** `INSERT OR REPLACE` on the primary key: `key` now holds `row`, every
      other key keeps its row. */
  function Upsert(table: Table, key: int, row: Row): (t: Table)
    ensures t.Keys == table.Keys + {key}
    ensures t[key] == row
    ensures forall u :: u in table && u != key ==> t[u] == table[u]
  {
    table[key := row]
  }

  /** Replacing a row with the same row again changes nothing. */
  lemma UpsertAgain(table: Table, key: int, row: Row)
    ensures Upsert(Upsert(table, key, row), key, row) == Upsert(table, key, row)
  {
    assert table[key := row][key := row] == table[key := row];
  }

  /** `save_token_to_cache(token_info)`: `INSERT OR REPLACE` the row keyed by
      the insert's `discord_id` with the six token fields. The key is
      `current_user` unless `token_info` carries its own `discord_id`.
      Every other row is left as it was. */
  function SaveTokenToCache(h: CacheHandler, table: Table, tokenInfo: map<string, Value>): (r: Result<Table, DbError>)
    ensures var args := InsertArguments(h, tokenInfo);
      r.Success? <==> Insertable(args)
    ensures var args := InsertArguments(h, tokenInfo);
      r.Success? ==>
        var key := args["discord_id"].i;
        && r.value.Keys == table.Keys + {key}
        && HasTokenFields(args)
        && r.value[key] == RowOf(args)
        && (forall u :: u in table && u != key ==> r.value[u] == table[u])
  {
    var args := InsertArguments(h, tokenInfo);
    var bound := Bind(InsertParameters, args);
    if bound.Failure? then Failure(bound.error)
    else
      assert "discord_id" in InsertParameters;
      if !args["discord_id"].Int? then Failure(DatatypeMismatch)
      else
        InsertableHasTokenFields(args);
        Success(Upsert(table, args["discord_id"].i, RowOf(args)))
  }

  /** After a save for the current user (with no `discord_id` of its own in
      the token), the user is known and reading the cache gives back the
      dict of the six saved token fields. */
  lemma SaveThenLoad(h: CacheHandler, table: Table, tokenInfo: map<string, Value>)
    requires h.currentUser.Int? && "discord_id" !in tokenInfo
    requires Insertable(InsertArguments(h, tokenInfo))
    ensures HasTokenFields(tokenInfo)
    ensures var table' := SaveTokenToCache(h, table, tokenInfo).value;
      && HasUser(table', h.currentUser.i)
      && GetCachedToken(h, table') == Some(TokenDict(RowOf(tokenInfo)))
  {
    var args := InsertArguments(h, tokenInfo);
    assert args["discord_id"] == h.currentUser;
    InsertableHasTokenFields(args);
    assert HasTokenFields(tokenInfo);
    assert RowOf(args) == RowOf(tokenInfo);
  }

  /** The six token fields of a row read from a token dict are that dict
      cut down to the token columns. */
  lemma TokenDictOfInfo(info: map<string, Value>)
    requires HasTokenFields(info)
    ensures forall c :: c in TokenColumns ==> c in info
    ensures TokenDict(RowOf(info)) == map c | c in TokenColumns :: info[c]
  {
    assert forall c :: c in TokenColumns <==> c in TokenDict(RowOf(info)).Keys;
  }

  /** A save the insert accepts is an upsert of the row it binds. */
  lemma SaveIsUpsert(h: CacheHandler, table: Table, tokenInfo: map<string, Value>)
    requires Insertable(InsertArguments(h, tokenInfo))
    ensures HasTokenFields(InsertArguments(h, tokenInfo))
    ensures var args := InsertArguments(h, tokenInfo);
      SaveTokenToCache(h, table, tokenInfo) == Success(Upsert(table, args["discord_id"].i, RowOf(args)))
  {
    InsertableHasTokenFields(InsertArguments(h, tokenInfo));
  }

  /** Saving the same token twice leaves the table as saving it once. */
  lemma SaveIdempotent(h: CacheHandler, table: Table, tokenInfo: map<string, Value>)
    requires Insertable(InsertArguments(h, tokenInfo))
    ensures var once := SaveTokenToCache(h, table, tokenInfo).value;
      SaveTokenToCache(h, once, tokenInfo) == Success(once)
  {
    var args := InsertArguments(h, tokenInfo);
    SaveIsUpsert(h, table, tokenInfo);
    var key := args["discord_id"].i;
    var once := Upsert(table, key, RowOf(args));
    SaveIsUpsert(h, once, tokenInfo);
    UpsertAgain(table, key, RowOf(args));
  }

  /** A `discord_id` inside the token overrides `current_user` as the key. */
  lemma TokenKeyOverridesCurrentUser(h: CacheHandler, table: Table, tokenInfo: map<string, Value>)
    requires "discord_id" in tokenInfo && tokenInfo["discord_id"].Int?
    requires Insertable(InsertArguments(h, tokenInfo))
    ensures var key := tokenInfo["discord_id"].i;
      var table' := SaveTokenToCache(h, table, tokenInfo).value;
      key in table' &&
      (h.currentUser.Int? && h.currentUser.i != key && h.currentUser.i !in table ==> h.currentUser.i !in table')
  {
  }

  /** A fresh handler reads nothing and cannot save a token that lacks its
      own `discord_id`: the key would be the text `""`. */
  lemma FreshHandlerHasNoUser(table: Table, tokenInfo: map<string, Value>)
    requires "discord_id" !in tokenInfo
    ensures GetCachedToken(NewCacheHandler(), table) == None
    ensures SaveTokenToCache(NewCacheHandler(), table, tokenInfo).Failure?
  {
  }
}

=== FILE: wrappers.dfy ===
/** Failure-carrying datatypes shared by the rest of the model. */
module Wrappers {

  /** A value that may be absent: Python's `None` versus a real value. */
  datatype Option<+T> = None | Some(value: T)

  /** The outcome of an operation that either succeeds or raises. */
  datatype Result<+R, +E> = Success(value: R) | Failure(error: E)
}
